=== FILE: README.md ===
# Near-duplicate image detection with LSH: a Dafny model

This project models `find_near_duplicates` from `detect.py` (image-ndd-lsh).
The function finds pairs of near-duplicate images in a directory without
comparing every pair. It works in five stages:

1. Each decodable image has a difference-hash signature of `hash_size²` bits.
2. Each signature is cut into `bands` slices of `rows = hash_size² / bands`
   bits. There is one bucket table per band index, keyed by the slice.
3. Each bucket with two or more members is sorted by path. Every pair
   `(m[i], m[j])` with `i < j` goes into one shared candidate set.
4. Each candidate gets a Hamming distance over its packed-then-unpacked full
   signatures. It is kept when `(n - hd) / n` is strictly above the threshold.
5. The kept triples are sorted by descending similarity.

The model works on values: signatures are `seq<bool>`, bucket tables are
`map<seq<bool>, seq<string>>`, candidates are a `set<(string, string)>`,
and similarity is an exact `real`. The directory listing and the per-file
signature computation are inputs. `files` is the listing, and
`sigs: map<string, seq<bool>>` maps each decodable file to its signature.
A file missing from `sigs` is one whose decoding raised `IOError`.

Modules, in dependency order:

- `StringOrder` (string_order.dfy): Python's `str` ordering. Dafny's `<` on
  sequences means "proper prefix", so the order is defined here.
- `Sorting` (sorting.dfy): insertion sort by any total preorder. Used for
  `sorted(bucket)` and for the ranking.
- `Banding` (banding.dfy): `rows`, Python-style slicing, and band lemmas.
- `Packing` (packing.dfy): NumPy `packbits` / `unpackbits`.
- `Distance` (distance.dfy): Hamming distance, the XOR-and-sum the source
  computes, and similarity.
- `Buckets` (buckets.dfy): the bucket tables and their invariants.
- `CandidatePairs` (candidates.dfy): the candidate set, characterised
  without buckets.
- `Errors` (errors.dfy): the two division-by-zero failures.
- `Scoring` (scoring.dfy): the scoring loop.
- `Ranking` (ranking.dfy): the final sort.
- `Detect` (detect.dfy): `find_near_duplicates` as a whole, proved to agree
  with a specification that never mentions buckets.

Where the documentation and the code disagree, the model follows the code:

- The docstring (detect.py:41) says pairs with similarity `>=` threshold are
  reported. The code (detect.py:97) uses `>`, and so does the model.
- Buckets are described as sets of identifiers. The code appends to lists
  (detect.py:74-75). The model uses lists and proves they never hold a file
  twice, given a listing without repeats.
- Ties in the ranking are not broken by any secondary key (detect.py:101).
  The model leaves tie order open.
- `bands == 0` and `hash_size == 0` are not validated. `bands == 0` always
  raises `ZeroDivisionError` at detect.py:48, and the model returns
  `Err(ZeroBands)`. A zero signature length raises at detect.py:96 only once
  a candidate pair is scored. With fewer than two decodable files sharing a
  band, the loop body never runs and the result is `[]`. The model returns
  `Err(ZeroSignatureLength)` exactly when `hash_size == 0` and some candidate
  exists.
- For `bands < 0`, `range(bands)` is empty. No table is built, no pair is a
  candidate, and the result is empty, whatever `hash_size` is.

## Model

| member | source | states |
|---|---|---|
| `Banding.Slice` | detect.py:71 | Python slicing `s[lo:hi]` with clamping; `Banding.BandInRange` shows no clamping happens for a band index below `bands` |
| `Banding.Band` | detect.py:71 | band `i` of a signature, `signature[i*rows:(i+1)*rows]`; characterised by `Banding.BandInRange`, `Banding.BandsSpellPrefix` and `Banding.TrailingBitInNoBand` |
| `Banding.Rows` | detect.py:48 | `rows` is the truncated quotient: `bands*rows <= n < bands*(rows+1)` |
| `Banding.RowsCoverage` | detect.py:48 | the bands cover all `n` bits iff `bands` divides `n`; otherwise exactly `n % bands < bands` bits are left over |
| `Banding.BandInRange` | detect.py:70-71 | for `i < bands`, the slice bound never passes the end of the signature, so band `i` is exactly `rows` bits starting at bit `i*rows` |
| `Banding.BandsSpellPrefix` | detect.py:70-71 | the bands are contiguous and disjoint: the first `count` bands, concatenated, are the first `count*rows` bits |
| `Banding.AllBandsSpellSignaturePrefix` | detect.py:70-71 | all `bands` bands together are the signature minus its last `n % bands` bits |
| `Banding.TrailingBitInNoBand` | detect.py:70-71 | changing a bit at or past `bands*rows` changes no band key, so trailing bits never affect bucketing |
| `Buckets.AddToBucket` | detect.py:73-75 | insert-or-create then append: the new key set is the old one plus the band, that bucket gains the file at its end, every other bucket is unchanged |
| `Buckets.AddImage` | detect.py:70-75 | in every table `i`, the file is appended to the bucket of its band `i` (created if missing) and every other bucket is unchanged |
| `Buckets.BuildTables` | detect.py:59-75 | after all files: there are `bands` tables; every bucket member has a signature whose band is the bucket key; every file with a signature sits in the bucket of its band in every table; with a repeat-free listing, no bucket repeats a file |
| `Buckets.AddImageKeepsInvariants` | detect.py:70-75 | one pass of the banding loop for a new file keeps all three table invariants |
| `Buckets.ImageInExactlyOneBucket` | detect.py:70-75 | in each table, the set of buckets containing a file is exactly the one keyed by its band, or empty if it has no signature |
| `Buckets.WithSignature` | detect.py:59-64 | the files kept after skipping decode failures are exactly the listed files with a signature |
| `Buckets.SkippedFilesIgnored` | detect.py:59-64 | the tables built from the listing equal those built from the listing with undecodable files removed |
| `StringOrder.LexLe` | detect.py:82 | `a <= b` on `str`, the comparison `sorted` applies to paths; characterised by `StringOrder.LexLeMeansFirstDifference` and shown a total order by the lemmas below |
| `StringOrder.LexLeMeansFirstDifference` | detect.py:82 | the recursive string order equals "prefix, or smaller character at the first difference" |
| `StringOrder.LexLeReflexive` | detect.py:82 | every path is ordered before or equal to itself, so with totality, antisymmetry and transitivity the path order is a total order |
| `StringOrder.LexLeTotal` | detect.py:82 | any two paths are comparable |
| `StringOrder.LexLeAntisymmetric` | detect.py:82 | paths ordered both ways are equal |
| `StringOrder.LexLeTransitive` | detect.py:82 | the path order is transitive |
| `StringOrder.LexLtTrichotomy` | detect.py:82 | exactly one of `a < b`, `a == b`, `b < a` holds |
| `Sorting.Sort` | detect.py:82 | the output is a permutation (same multiset) of the input, and sorted for the comparison |
| `Sorting.PermutationKeepsDistinct` | detect.py:82 | sorting a bucket without repeats yields no repeats |
| `CandidatePairs.SortPaths` | detect.py:82 | `sorted(bucket)` is a permutation of the bucket in path order |
| `CandidatePairs.OrderedPairs` | detect.py:83-87 | the pairs `(m[i], m[j])` with `i < j` of the double loop; characterised by `CandidatePairs.BucketPairsAreOrderedMembers` |
| `CandidatePairs.BucketPairs` | detect.py:81-87 | what one bucket adds: nothing below two members, else the ordered pairs of the sorted bucket; characterised by `CandidatePairs.BucketPairsAreOrderedMembers` |
| `CandidatePairs.Candidates` | detect.py:78-87 | the union over all tables and buckets; characterised without buckets by `CandidatePairs.CandidateIffShareBand` |
| `CandidatePairs.BucketPairsAreOrderedMembers` | detect.py:81-87 | a repeat-free bucket contributes `(a, b)` iff both are members and `a < b`; buckets of size one contribute nothing |
| `CandidatePairs.CandidateIffShareBand` | detect.py:70-87 | `(a, b)` is a candidate iff both files have signatures, `a < b`, and some band index `i < bands` has equal slices; pairs differing in every band are never scored |
| `CandidatePairs.CandidatePairsCanonical` | detect.py:78-87 | every candidate is in strict path order, and its reverse is never a candidate, so each unordered pair appears once |
| `Packing.ValueBitsOfBitsValue` | detect.py:67 | reading bits as a number (most significant first) and writing it back at the same width is the identity |
| `Packing.ByteOf` | detect.py:67 | a packed byte unpacks to the eight bits it was packed from |
| `Packing.PadLength` | detect.py:67 | `packbits` pads with fewer than 8 bits, up to a multiple of 8 |
| `Packing.PackLength` | detect.py:67 | the packed form has one byte per started group of eight bits: `8 * bytes == n + padding` |
| `Packing.Pack` | detect.py:67 | `np.packbits`; its length is given by `Packing.PackLength` and its inverse by `Packing.UnpackPack` |
| `Packing.Unpack` | detect.py:93-94 | `np.unpackbits`: eight bits per byte; undoes `Packing.Pack` up to the zero padding (`Packing.UnpackPack`) |
| `Packing.UnpackPack` | detect.py:67 | unpacking a packed signature gives the signature followed by zero padding |
| `Distance.XorBits` | detect.py:92-95 | `np.bitwise_xor` on bit arrays, same length as its inputs; its ones are the differing positions (`Distance.CountOnesXorIsHamming`) |
| `Distance.CountOnes` | detect.py:92-95 | `sum` over a bit array; equals the number of `true` positions (`Distance.CountOnesIsCardinality`) |
| `Distance.PackedDistance` | detect.py:92-95 | `hd` as the source computes it from packed signatures; equals the Hamming distance of the originals (`Distance.PackedDistanceIsHamming`) |
| `Distance.CountOnesIsCardinality` | detect.py:92-95 | `sum` over a bit array counts the positions holding `true`, and is at most the length |
| `Distance.CountOnesXorIsHamming` | detect.py:92-95 | the ones of the XOR are exactly the positions where the inputs differ |
| `Distance.PackedDistanceIsHamming` | detect.py:92-95 | XOR-and-sum over unpacked packed signatures equals the Hamming distance of the originals, padding notwithstanding |
| `Distance.HammingBound` | detect.py:92-96 | the distance is at most the signature length |
| `Distance.HammingZeroIffEqual` | detect.py:92-95 | the distance is zero iff the signatures are identical |
| `Distance.HammingSymmetric` | detect.py:92-95 | the distance does not depend on argument order |
| `Distance.Similarity` | detect.py:96 | similarity lies in `[0, 1]` |
| `Distance.SimilaritySymmetric` | detect.py:96 | similarity does not depend on argument order |
| `Distance.SimilarityOneIffIdentical` | detect.py:96 | similarity is 1 iff the two signatures are bit-identical |
| `Scoring.PackedSimilarity` | detect.py:96 | `(hash_size**2 - hd) / hash_size**2` from packed signatures; equals `Distance.Similarity` of the originals (`Scoring.PackedSimilarityIsSimilarity`) |
| `Scoring.PackedSimilarityIsSimilarity` | detect.py:92-96 | the score computed from packed signatures equals the similarity of the original signatures |
| `Scoring.ScoreStep` | detect.py:91-98 | one loop iteration keeps "output = accepted pairs seen so far, each once" |
| `Scoring.ScoreCandidates` | detect.py:89-98 | fails iff `n == 0` with a candidate present; otherwise returns each candidate with similarity strictly above the threshold, with that similarity, exactly once, and nothing else |
| `Ranking.Rank` | detect.py:100-102 | the result is a permutation of the accepted triples, ordered by non-increasing similarity |
| `Detect.FindNearDuplicates` | detect.py:35-102 | fails iff `bands == 0`, or `hash_size == 0` with some candidate, naming the failing division; otherwise lists exactly the pairs (a < b, both decodable, sharing a band, similarity > threshold) with their similarity, each once, most similar first |
| `Detect.IdenticalImagesReported` | detect.py:70-98 | two decodable images with identical signatures are reported with similarity 1 whenever the threshold is below 1 |
| `Detect.ReportDependsOnlyOnPair` | detect.py:59-98 | whether a triple is reported depends only on the two files' signatures, not on other files or failed decodes |
| `Detect.HighThresholdReportsNothing` | detect.py:96-97 | with a threshold of 1 or more no triple is reported, because similarity is at most 1 |
| `Detect.NegativeThresholdReportsEveryCandidate` | detect.py:96-97 | with a negative threshold every candidate pair is reported with its similarity |

## Left out

- `calculate_signature` (detect.py:12-32): PIL decoding, resizing and `imagehash.dhash` are outside the model. Signatures are an input map. A decode failure is a missing entry.
- Directory listing and `isfile` filtering (detect.py:53-56): file-system I/O. The listing is an input sequence of distinct paths. So the re-raised `OSError` for an unreadable directory is not modelled.
- `main`, argument parsing and printing (detect.py:106-133): command-line presentation.
- Floating point: `int(hash_size**2 / bands)` is modelled as integer division. It can differ for operands too large for a double. Similarity and threshold are exact reals, so rounding that could flip `>` at the boundary is not modelled.
- `tostring()` bucket keys (detect.py:72): the band itself is the key. It distinguishes the same bands as its byte encoding.
- `bands < 0`: Python computes a negative `rows` that is never used. The model uses 0 and builds no tables, with the same empty result.
- Paths whose names are not valid Unicode: `listdir` (detect.py:54) turns undecodable filename bytes into lone surrogates U+DC80 to U+DCFF. A Dafny `string` holds only Unicode scalar values, so such paths lie outside the model. For every other path, `StringOrder.LexLe` is the same code-point order `sorted` uses.
- Non-finite thresholds: `threshold` is a Python float and may be `nan` or `±inf`; a `real` can express neither. `similarity > nan` and `similarity > inf` are always false, as with any threshold of at least 1.0 (similarity never exceeds 1). `-inf` keeps every candidate, as any negative threshold does.
- Distance.CountOnes: follows NumPy 1.x scalar promotion, where the builtin `sum` at detect.py:92 adds `uint8` values into a NumPy `int64` count (C `long`; `int32` on Windows), so `hd` is exact for any signature below 2**31 bits. Under NumPy 2 promotion the running sum stays `uint8` and wraps at 256, and `hash_size**2 - hd` at detect.py:96 can raise `OverflowError` once `hash_size**2 > 255`. That wrap-around and that error are outside the model.
- Python dict and set iteration order: the scoring loop visits candidates in an arbitrary order.
- Ranking.Rank: does not promise stability (Python's sort is stable). The input order it would preserve is the unspecified set iteration order.
- Sorting.Sort: states a sorted permutation, not stability, for the same reason.

=== FILE: banding.dfy ===
/**
  Cutting a signature into bands (detect.py, `rows` and the slicing loop).

  A signature of `n` bits is cut into `bands` consecutive slices of
  `rows = n / bands` bits each (the source truncates a float quotient, which
  for non-negative operands below 2**52 is integer division). When `bands` does
  not divide `n`, the last `n - bands * rows` bits belong to no band.
 */
module Banding {

  /** Python's `s[lo:hi]` for non-negative bounds: bounds past the end are
      clamped to the end, and an empty range gives the empty sequence. */
  function Slice<T>(s: seq<T>, lo: nat, hi: nat): seq<T>
  {
    var end := if hi <= |s| then hi else |s|;
    if lo <= end then s[lo..end] else []
  }

  /** `int(hash_size**2 / bands)`: the number of bits per band. */
  function Rows(n: nat, bands: nat): (rows: nat)
    requires bands > 0
    ensures bands * rows <= n < bands * (rows + 1)
  {
    n / bands
  }

  /** `signature[i*rows:(i+1)*rows]`: the key of image `sig` in table `i`. */
  function Band(sig: seq<bool>, i: nat, rows: nat): seq<bool>
  {
    Slice(sig, i * rows, (i + 1) * rows)
  }

  /** The bands `0 .. count-1` of `sig`, in order. */
  function Bands(sig: seq<bool>, count: nat, rows: nat): seq<seq<bool>>
  {
    seq(count, i requires 0 <= i < count => Band(sig, i, rows))
  }

  /** The concatenation of a sequence of slices. */
  function Flatten(parts: seq<seq<bool>>): seq<bool>
  {
    if |parts| == 0 then [] else Flatten(parts[..|parts| - 1]) + parts[|parts| - 1]
  }

  /** The bands cover `n` exactly when `bands` divides `n`; otherwise fewer
      than `bands` bits are left over. */
  lemma RowsCoverage(n: nat, bands: nat)
    requires bands > 0
    ensures bands * Rows(n, bands) == n <==> n % bands == 0
    ensures n - bands * Rows(n, bands) == n % bands < bands
  {
    var rows := Rows(n, bands);
    assert n == bands * (n / bands) + n % bands;
  }

  /** Every band is a genuine slice of `rows` bits, starting at bit `i * rows`:
      for `i < bands` the slice bound never runs past the signature. */
  lemma {:induction false} BandInRange(sig: seq<bool>, bands: nat, i: nat)
    requires bands > 0
    requires i < bands
    ensures (i + 1) * Rows(|sig|, bands) <= |sig|
    ensures |Band(sig, i, Rows(|sig|, bands))| == Rows(|sig|, bands)
    ensures Band(sig, i, Rows(|sig|, bands)) == sig[i * Rows(|sig|, bands)..(i + 1) * Rows(|sig|, bands)]
  {
    var rows := Rows(|sig|, bands);
    MulMonotone(i + 1, bands, rows);
    assert (i + 1) * rows == i * rows + rows;
  }

  lemma MulMonotone(a: nat, b: nat, c: nat)
    requires a <= b
    ensures a * c <= b * c
  {
  }

  /** The bands are contiguous and do not overlap: laid end to end, the first
      `count` of them spell out the first `count * rows` bits. */
  lemma {:induction false} BandsSpellPrefix(sig: seq<bool>, count: nat, rows: nat)
    requires count * rows <= |sig|
    ensures Flatten(Bands(sig, count, rows)) == sig[..count * rows]
  {
    if count > 0 {
      var k := count - 1;
      MulMonotone(k, count, rows);
      assert count * rows == k * rows + rows;
      assert Bands(sig, count, rows)[..k] == Bands(sig, k, rows);
      BandsSpellPrefix(sig, k, rows);
      assert Band(sig, k, rows) == sig[k * rows..count * rows];
      assert sig[..count * rows] == sig[..k * rows] + sig[k * rows..count * rows];
    }
  }

  /** With `rows = n / bands`, all `bands` bands together are the signature
      minus its last `n % bands` bits. */
  lemma AllBandsSpellSignaturePrefix(sig: seq<bool>, bands: nat)
    requires bands > 0
    ensures Flatten(Bands(sig, bands, Rows(|sig|, bands))) == sig[..|sig| - |sig| % bands]
  {
    RowsCoverage(|sig|, bands);
    BandsSpellPrefix(sig, bands, Rows(|sig|, bands));
  }

  /** A bit past `bands * rows` lies in no band: changing it changes no band key. */
  lemma TrailingBitInNoBand(sig: seq<bool>, bands: nat, j: nat, v: bool)
    requires bands > 0
    requires bands * Rows(|sig|, bands) <= j < |sig|
    ensures forall i :: 0 <= i < bands ==>
      Band(sig[j := v], i, Rows(|sig|, bands)) == Band(sig, i, Rows(|sig|, bands))
  {
    var rows := Rows(|sig|, bands);
    forall i | 0 <= i < bands
      ensures Band(sig[j := v], i, rows) == Band(sig, i, rows)
    {
      BandInRange(sig, bands, i);
      BandInRange(sig[j := v], bands, i);
      MulMonotone(i + 1, bands, rows);
    }
  }
}

=== FILE: buckets.dfy ===
/**
  The bucket tables of locality-sensitive hashing (detect.py:50, 59-75).

  There is one table per band index. Every file whose signature could be
  computed is appended, in listing order, to the bucket of table `i` keyed by
  band `i` of its signature. A file whose signature could not be computed
  (absent from `sigs`) is skipped. The source keys a bucket by the bytes of
  the band (`tostring()`); here the band itself is the key, which
  distinguishes exactly the same bands.
 */
module Buckets {
  import opened Sorting
  import opened Banding

  /** Band content to the files whose band has that content, in append order. */
  type Table = map<seq<bool>, seq<string>>

  /** The file has a signature: it was listed and decoding it succeeded. */
  predicate HasSignature(f: string, files: seq<string>, sigs: map<string, seq<bool>>)
  {
    f in files && f in sigs
  }

  /** Insert-or-create, then append (detect.py:73-75). */
  function AddToBucket(t: Table, key: seq<bool>, f: string): (r: Table)
    ensures r.Keys == t.Keys + {key}
    ensures r[key] == (if key in t then t[key] else []) + [f]
    ensures forall k :: k in t && k != key ==> r[k] == t[k]
  {
    if key in t then t[key := t[key] + [f]] else t[key := [f]]
  }

  /** One pass of the loop at detect.py:70-75: in table `i`, file `f` is
      appended to the bucket of band `i`, created if missing; every other
      bucket of every table is left as it was. */
  function AddImage(tables: seq<Table>, f: string, sig: seq<bool>, rows: nat): (r: seq<Table>)
    ensures |r| == |tables|
    ensures forall i :: 0 <= i < |r| ==> r[i].Keys == tables[i].Keys + {Band(sig, i, rows)}
    ensures forall i :: 0 <= i < |r| ==>
      r[i][Band(sig, i, rows)] == (if Band(sig, i, rows) in tables[i] then tables[i][Band(sig, i, rows)] else []) + [f]
    ensures forall i, key :: 0 <= i < |r| && key in tables[i] && key != Band(sig, i, rows) ==> r[i][key] == tables[i][key]
  {
    seq(|tables|, i requires 0 <= i < |tables| => AddToBucket(tables[i], Band(sig, i, rows), f))
  }

  /** Every member of a bucket has a signature whose band is the bucket key. */
  ghost predicate MembersMatchKeys(tables: seq<Table>, files: seq<string>, sigs: map<string, seq<bool>>, rows: nat)
  {
    forall i, key, f :: 0 <= i < |tables| && key in tables[i] && f in tables[i][key] ==>
      HasSignature(f, files, sigs) && key == Band(sigs[f], i, rows)
  }

  /** Every file with a signature sits in the bucket of its band, in every table. */
  ghost predicate EveryImageFiled(tables: seq<Table>, files: seq<string>, sigs: map<string, seq<bool>>, rows: nat)
  {
    forall i, f :: 0 <= i < |tables| && HasSignature(f, files, sigs) ==>
      Band(sigs[f], i, rows) in tables[i] && f in tables[i][Band(sigs[f], i, rows)]
  }

  /** No bucket holds a file twice. */
  ghost predicate BucketsDistinct(tables: seq<Table>)
  {
    forall i, key :: 0 <= i < |tables| && key in tables[i] ==> Distinct(tables[i][key])
  }

  /** The `bands` bucket tables after all `files` have been processed. */
  function BuildTables(files: seq<string>, sigs: map<string, seq<bool>>, bands: nat, rows: nat): (r: seq<Table>)
    ensures |r| == bands
    ensures MembersMatchKeys(r, files, sigs, rows)
    ensures EveryImageFiled(r, files, sigs, rows)
    ensures Distinct(files) ==> BucketsDistinct(r)
    decreases |files|
  {
    if |files| == 0 then seq(bands, _ => map[])
    else
      var init, last := files[..|files| - 1], files[|files| - 1];
      assert files == init + [last];
      var t := BuildTables(init, sigs, bands, rows);
      if last in sigs then
        AddImageKeepsInvariants(t, init, last, sigs, rows);
        AddImage(t, last, sigs[last], rows)
      else
        assert forall f :: HasSignature(f, files, sigs) <==> HasSignature(f, init, sigs);
        t
  }

  /** Appending a new file with a signature keeps the table invariants. */
  lemma AddImageKeepsInvariants(t: seq<Table>, init: seq<string>, last: string, sigs: map<string, seq<bool>>, rows: nat)
    requires last in sigs
    requires MembersMatchKeys(t, init, sigs, rows)
    requires EveryImageFiled(t, init, sigs, rows)
    ensures MembersMatchKeys(AddImage(t, last, sigs[last], rows), init + [last], sigs, rows)
    ensures EveryImageFiled(AddImage(t, last, sigs[last], rows), init + [last], sigs, rows)
    ensures Distinct(init + [last]) && BucketsDistinct(t) ==> BucketsDistinct(AddImage(t, last, sigs[last], rows))
  {
    AddImageKeepsMembersMatchKeys(t, init, last, sigs, rows);
    AddImageKeepsEveryImageFiled(t, init, last, sigs, rows);
    if Distinct(init + [last]) && BucketsDistinct(t) {
      AddImageKeepsBucketsDistinct(t, init, last, sigs, rows);
    }
  }

  lemma AddImageKeepsMembersMatchKeys(t: seq<Table>, init: seq<string>, last: string, sigs: map<string, seq<bool>>, rows: nat)
    requires last in sigs
    requires MembersMatchKeys(t, init, sigs, rows)
    ensures MembersMatchKeys(AddImage(t, last, sigs[last], rows), init + [last], sigs, rows)
  {
    var r := AddImage(t, last, sigs[last], rows);
    forall i, key, f | 0 <= i < |r| && key in r[i] && f in r[i][key]
      ensures HasSignature(f, init + [last], sigs) && key == Band(sigs[f], i, rows)
    {
      MemberOfAddImage(t, init, last, sigs, rows, i, key, f);
    }
  }

  lemma MemberOfAddImage(t: seq<Table>, init: seq<string>, last: string, sigs: map<string, seq<bool>>, rows: nat,
                         i: nat, key: seq<bool>, f: string)
    requires last in sigs && i < |t|
    requires MembersMatchKeys(t, init, sigs, rows)
    requires key in AddImage(t, last, sigs[last], rows)[i] && f in AddImage(t, last, sigs[last], rows)[i][key]
    ensures HasSignature(f, init + [last], sigs) && key == Band(sigs[f], i, rows)
  {
    var k := Band(sigs[last], i, rows);
    if key == k && f != last {
      assert f in (if k in t[i] then t[i][k] else []);
    }
    MemberMatchesKey(t, init, last, sigs, rows, i, key, f);
  }

  lemma MemberMatchesKey(t: seq<Table>, init: seq<string>, last: string, sigs: map<string, seq<bool>>, rows: nat,
                         i: nat, key: seq<bool>, f: string)
    requires last in sigs && i < |t|
    requires MembersMatchKeys(t, init, sigs, rows)
    requires (key == Band(sigs[last], i, rows) && f == last) || (key in t[i] && f in t[i][key])
    ensures HasSignature(f, init + [last], sigs) && key == Band(sigs[f], i, rows)
  {
    assert last in init + [last];
    if !(key == Band(sigs[last], i, rows) && f == last) {
      assert HasSignature(f, init, sigs);
      assert f in init + [last];
    }
  }

  lemma AddImageKeepsEveryImageFiled(t: seq<Table>, init: seq<string>, last: string, sigs: map<string, seq<bool>>, rows: nat)
    requires last in sigs
    requires EveryImageFiled(t, init, sigs, rows)
    ensures EveryImageFiled(AddImage(t, last, sigs[last], rows), init + [last], sigs, rows)
  {
    var r := AddImage(t, last, sigs[last], rows);
    var files := init + [last];
    assert forall g :: g in files <==> g in init || g == last;
    forall i, f | 0 <= i < |r| && HasSignature(f, files, sigs)
      ensures Band(sigs[f], i, rows) in r[i] && f in r[i][Band(sigs[f], i, rows)]
    {
      if f != last {
        assert HasSignature(f, init, sigs);
      }
    }
  }

  lemma AddImageKeepsBucketsDistinct(t: seq<Table>, init: seq<string>, last: string, sigs: map<string, seq<bool>>, rows: nat)
    requires last in sigs
    requires MembersMatchKeys(t, init, sigs, rows)
    requires Distinct(init + [last])
    requires BucketsDistinct(t)
    ensures BucketsDistinct(AddImage(t, last, sigs[last], rows))
  {
    var r := AddImage(t, last, sigs[last], rows);
    var files := init + [last];
    assert last !in init by {
      forall j | 0 <= j < |init| ensures init[j] != last {
        assert files[j] == init[j] && files[|init|] == last;
      }
    }
    forall i, key | 0 <= i < |r| && key in r[i]
      ensures Distinct(r[i][key])
    {
      var k := Band(sigs[last], i, rows);
      if key == k {
        var prior := if key in t[i] then t[i][key] else [];
        assert last !in prior;
        assert r[i][key] == prior + [last];
      } else {
        assert r[i][key] == t[i][key];
      }
    }
  }

  /** Each file with a signature is in exactly one bucket of every table,
      the one keyed by its band; a file without a signature is in none. */
  lemma ImageInExactlyOneBucket(files: seq<string>, sigs: map<string, seq<bool>>, bands: nat, rows: nat, i: nat, f: string)
    requires i < bands
    ensures var t := BuildTables(files, sigs, bands, rows)[i];
      (set key | key in t && f in t[key]) ==
        if HasSignature(f, files, sigs) then {Band(sigs[f], i, rows)} else {}
  {
    var t := BuildTables(files, sigs, bands, rows)[i];
    if HasSignature(f, files, sigs) {
      assert Band(sigs[f], i, rows) in (set key | key in t && f in t[key]);
    }
  }

  /** The files that have a signature, in listing order. */
  function WithSignature(files: seq<string>, sigs: map<string, seq<bool>>): (r: seq<string>)
    ensures forall f :: f in r <==> HasSignature(f, files, sigs)
  {
    if |files| == 0 then []
    else
      var init, last := files[..|files| - 1], files[|files| - 1];
      assert files == init + [last];
      WithSignature(init, sigs) + (if last in sigs then [last] else [])
  }

  /** A file whose signature could not be computed leaves no trace: the
      tables are those built from the listing without it. */
  lemma {:induction false} SkippedFilesIgnored(files: seq<string>, sigs: map<string, seq<bool>>, bands: nat, rows: nat)
    ensures BuildTables(files, sigs, bands, rows) == BuildTables(WithSignature(files, sigs), sigs, bands, rows)
    decreases |files|
  {
    if |files| > 0 {
      var init, last := files[..|files| - 1], files[|files| - 1];
      var kept := WithSignature(files, sigs);
      SkippedFilesIgnored(init, sigs, bands, rows);
      if last in sigs {
        assert kept[..|kept| - 1] == WithSignature(init, sigs);
        assert kept[|kept| - 1] == last;
      } else {
        assert kept == WithSignature(init, sigs);
      }
    }
  }
}

=== FILE: candidates.dfy ===
/**
  Candidate pairs (detect.py:78-87).

  Every bucket with two or more members contributes, after sorting its members
  by path, each pair `(m[i], m[j])` with `i < j`. All buckets of all tables feed
  one set, so a pair that collides in several bands is present once.
 */
module CandidatePairs {
  import opened StringOrder
  import opened Sorting
  import opened Banding
  import opened Buckets

  /** A candidate pair of file paths, first path before second. */
  type Pair = (string, string)

  /** The comparison `sorted` applies to paths. */
  const PathLe: (string, string) -> bool := (a, b) => LexLe(a, b)

  lemma PathLeIsTotalPreorder()
    ensures TotalPreorder(PathLe)
  {
    forall x, y ensures PathLe(x, y) || PathLe(y, x) {
      LexLeTotal(x, y);
    }
    forall x, y, z | PathLe(x, y) && PathLe(y, z) ensures PathLe(x, z) {
      LexLeTransitive(x, y, z);
    }
  }

  /** `sorted(bucket)`. */
  function SortPaths(bucket: seq<string>): (r: seq<string>)
    ensures multiset(r) == multiset(bucket)
    ensures SortedBy(r, PathLe)
  {
    PathLeIsTotalPreorder();
    Sort(bucket, PathLe)
  }

  /** The pairs `(s[i], s[j])` with `i < j`: the double loop at detect.py:83-87. */
  function OrderedPairs(s: seq<string>): set<Pair>
  {
    set i, j | 0 <= i < j < |s| :: (s[i], s[j])
  }

  /** What one bucket adds to the candidate set (detect.py:81-87). */
  function BucketPairs(bucket: seq<string>): set<Pair>
  {
    if |bucket| > 1 then OrderedPairs(SortPaths(bucket)) else {}
  }

  /** The candidate set built from all bucket tables. */
  function Candidates(tables: seq<Table>): set<Pair>
  {
    set i, key, p | 0 <= i < |tables| && key in tables[i] && p in BucketPairs(tables[i][key]) :: p
  }

  /** A bucket without repeated members contributes exactly the pairs of its
      members in strictly increasing path order. */
  lemma BucketPairsAreOrderedMembers(bucket: seq<string>, a: string, b: string)
    requires Distinct(bucket)
    ensures (a, b) in BucketPairs(bucket) <==> a in bucket && b in bucket && LexLt(a, b)
  {
    if (a, b) in BucketPairs(bucket) {
      BucketPairsSound(bucket, a, b);
    }
    if a in bucket && b in bucket && LexLt(a, b) {
      BucketPairsComplete(bucket, a, b);
    }
  }

  /** Sorting a repeat-free bucket keeps its members and adds no repeats. */
  lemma SortPathsKeepsMembers(bucket: seq<string>)
    requires Distinct(bucket)
    ensures forall x :: x in SortPaths(bucket) <==> x in bucket
    ensures Distinct(SortPaths(bucket))
  {
    var r := SortPaths(bucket);
    forall x ensures x in r <==> x in bucket {
      assert x in r <==> x in multiset(r);
      assert x in bucket <==> x in multiset(bucket);
    }
    PermutationKeepsDistinct(bucket, r);
  }

  lemma BucketPairsSound(bucket: seq<string>, a: string, b: string)
    requires Distinct(bucket)
    requires (a, b) in BucketPairs(bucket)
    ensures a in bucket && b in bucket && LexLt(a, b)
  {
    var r := SortPaths(bucket);
    SortPathsKeepsMembers(bucket);
    var i, j :| 0 <= i < j < |r| && (r[i], r[j]) == (a, b);
    assert PathLe(r[i], r[j]);
  }

  lemma BucketPairsComplete(bucket: seq<string>, a: string, b: string)
    requires Distinct(bucket)
    requires a in bucket && b in bucket && LexLt(a, b)
    ensures (a, b) in BucketPairs(bucket)
  {
    var r := SortPaths(bucket);
    SortPathsKeepsMembers(bucket);
    var i :| 0 <= i < |r| && r[i] == a;
    var j :| 0 <= j < |r| && r[j] == b;
    assert !LexLe(b, a) by {
      if LexLe(b, a) {
        LexLeAntisymmetric(a, b);
      }
    }
    assert i < j;
    assert (r[i], r[j]) in OrderedPairs(r);
  }

  /** Images have a common band: some band index at which their slices agree. */
  ghost predicate ShareBand(x: seq<bool>, y: seq<bool>, bands: nat, rows: nat)
  {
    exists i :: 0 <= i < bands && Band(x, i, rows) == Band(y, i, rows)
  }

  /** The candidate set is exactly the pairs of images with signatures, in
      path order, that agree on at least one band. Pairs that disagree on
      every band are never scored. */
  lemma CandidateIffShareBand(files: seq<string>, sigs: map<string, seq<bool>>, bands: nat, rows: nat, a: string, b: string)
    requires Distinct(files)
    ensures (a, b) in Candidates(BuildTables(files, sigs, bands, rows)) <==>
      && HasSignature(a, files, sigs)
      && HasSignature(b, files, sigs)
      && LexLt(a, b)
      && ShareBand(sigs[a], sigs[b], bands, rows)
  {
    var t := BuildTables(files, sigs, bands, rows);
    if (a, b) in Candidates(t) {
      var i, key :| 0 <= i < |t| && key in t[i] && (a, b) in BucketPairs(t[i][key]);
      BucketPairsAreOrderedMembers(t[i][key], a, b);
      assert Band(sigs[a], i, rows) == key == Band(sigs[b], i, rows);
    }
    if && HasSignature(a, files, sigs) && HasSignature(b, files, sigs)
       && LexLt(a, b) && ShareBand(sigs[a], sigs[b], bands, rows)
    {
      var i :| 0 <= i < bands && Band(sigs[a], i, rows) == Band(sigs[b], i, rows);
      var key := Band(sigs[a], i, rows);
      assert a in t[i][key] && b in t[i][key];
      BucketPairsAreOrderedMembers(t[i][key], a, b);
    }
  }

  /** Each unordered pair is present at most once, in path order. */
  lemma CandidatePairsCanonical(files: seq<string>, sigs: map<string, seq<bool>>, bands: nat, rows: nat, a: string, b: string)
    requires Distinct(files)
    requires (a, b) in Candidates(BuildTables(files, sigs, bands, rows))
    ensures LexLt(a, b)
    ensures (b, a) !in Candidates(BuildTables(files, sigs, bands, rows))
  {
    CandidateIffShareBand(files, sigs, bands, rows, a, b);
    CandidateIffShareBand(files, sigs, bands, rows, b, a);
    LexLtTrichotomy(a, b);
  }
}

=== FILE: detect.dfy ===
/**
  `find_near_duplicates` (detect.py:35-102): the whole pipeline.

  The directory listing and the per-file signature computation are inputs:
  `files` is the listing (distinct paths, in listing order) and `sigs` maps a
  path to its signature of `hash_size**2` bits; a path missing from `sigs` is
  a file that could not be decoded.

  `NearDuplicateSpec` says, without buckets, which triples the detector must
  report; `FindNearDuplicates` computes them through bucket tables,
  candidate pairs, packed scoring and ranking, and is proved to agree.
 */
module Detect {
  import opened Errors
  import opened StringOrder
  import opened Sorting
  import opened Packing
  import opened Distance
  import opened Banding
  import opened Buckets
  import opened CandidatePairs
  import opened Scoring
  import opened Ranking

  /** `hash_size**2`: the length of every signature. */
  function SignatureLength(hashSize: int): (n: nat)
    ensures n == 0 <==> hashSize == 0
  {
    hashSize * hashSize
  }

  /** The pair `(a, b)` must be scored: both files have signatures, `a` comes
      first in path order, and their signatures agree on some band. With no
      band (`bands < 0`) nothing is ever a candidate. */
  ghost predicate CandidateSpec(files: seq<string>, sigs: map<string, seq<bool>>, hashSize: int, bands: int,
                                a: string, b: string)
  {
    && bands > 0
    && HasSignature(a, files, sigs)
    && HasSignature(b, files, sigs)
    && LexLt(a, b)
    && ShareBand(sigs[a], sigs[b], bands, Rows(SignatureLength(hashSize), bands))
  }

  /** The triple `t` must be reported: its pair must be scored, and the
      similarity of the full signatures is strictly above the threshold. */
  ghost predicate NearDuplicateSpec(files: seq<string>, sigs: map<string, seq<bool>>, threshold: real,
                                    hashSize: int, bands: int, t: NearDuplicate)
  {
    && CandidateSpec(files, sigs, hashSize, bands, t.first, t.second)
    && |sigs[t.first]| == |sigs[t.second]| > 0
    && t.similarity == Similarity(sigs[t.first], sigs[t.second])
    && t.similarity > threshold
  }

  /** The detector. On success the result lists every required triple exactly
      once, most similar first; it fails exactly where the source divides by
      zero. */
  method FindNearDuplicates(files: seq<string>, sigs: map<string, seq<bool>>, threshold: real,
                            hashSize: int, bands: int)
    returns (r: Result<seq<NearDuplicate>>)
    requires Distinct(files)
    requires forall f :: f in sigs ==> |sigs[f]| == SignatureLength(hashSize)
    ensures r.Err? <==> bands == 0 || (hashSize == 0 && exists a, b :: CandidateSpec(files, sigs, hashSize, bands, a, b))
    ensures r.Err? ==> r.error == if bands == 0 then ZeroBands else ZeroSignatureLength
    ensures r.Ok? ==> forall t :: t in r.value <==> NearDuplicateSpec(files, sigs, threshold, hashSize, bands, t)
    ensures r.Ok? ==> Distinct(r.value)
    ensures r.Ok? ==> forall i, j :: 0 <= i < j < |r.value| ==> r.value[i].similarity >= r.value[j].similarity
  {
    if bands == 0 {
      return Err(ZeroBands);
    }
    var n := SignatureLength(hashSize);
    var tableCount: nat := if bands > 0 then bands else 0;
    var rows: nat := if bands > 0 then Rows(n, bands) else 0;
    var tables := BuildTables(files, sigs, tableCount, rows);
    var cands := Candidates(tables);
    var packed := map f | f in sigs && f in files :: Pack(sigs[f]);

    forall a, b ensures (a, b) in cands <==> CandidateSpec(files, sigs, hashSize, bands, a, b) {
      CandidateIffShareBand(files, sigs, tableCount, rows, a, b);
    }

    var scored := ScoreCandidates(cands, sigs, packed, n, threshold);
    if scored.Err? {
      assert exists a, b :: CandidateSpec(files, sigs, hashSize, bands, a, b) by {
        var p: Pair :| p in cands;
        assert (p.0, p.1) in cands;
      }
      return Err(scored.error);
    }

    var ranked := Rank(scored.value);
    forall t ensures t in ranked <==> NearDuplicateSpec(files, sigs, threshold, hashSize, bands, t) {
      assert t in ranked <==> t in multiset(ranked);
      assert t in scored.value <==> t in multiset(scored.value);
    }
    PermutationKeepsDistinct(scored.value, ranked);
    return Ok(ranked);
  }

  /** Two listed, decodable images with bit-identical signatures are always
      reported together, with similarity 1, whenever the threshold is below 1:
      identical signatures agree on every band. */
  lemma IdenticalImagesReported(files: seq<string>, sigs: map<string, seq<bool>>, threshold: real,
                                hashSize: int, bands: int, a: string, b: string)
    requires hashSize != 0 && bands > 0 && threshold < 1.0
    requires forall f :: f in sigs ==> |sigs[f]| == SignatureLength(hashSize)
    requires HasSignature(a, files, sigs) && HasSignature(b, files, sigs)
    requires LexLt(a, b)
    requires sigs[a] == sigs[b]
    ensures NearDuplicateSpec(files, sigs, threshold, hashSize, bands, NearDuplicate(a, b, 1.0))
  {
    var rows := Rows(SignatureLength(hashSize), bands);
    assert Band(sigs[a], 0, rows) == Band(sigs[b], 0, rows);
    SimilarityOneIffIdentical(sigs[a], sigs[b]);
  }

  /** Whether a pair is reported depends only on the two signatures involved,
      never on files that failed to decode or on other images. */
  lemma ReportDependsOnlyOnPair(files: seq<string>, sigs: map<string, seq<bool>>, files': seq<string>,
                                sigs': map<string, seq<bool>>, threshold: real, hashSize: int, bands: int,
                                t: NearDuplicate)
    requires HasSignature(t.first, files, sigs) && HasSignature(t.second, files, sigs)
    requires HasSignature(t.first, files', sigs') && HasSignature(t.second, files', sigs')
    requires sigs[t.first] == sigs'[t.first] && sigs[t.second] == sigs'[t.second]
    ensures NearDuplicateSpec(files, sigs, threshold, hashSize, bands, t) <==>
            NearDuplicateSpec(files', sigs', threshold, hashSize, bands, t)
  {
  }

  /** A threshold of 1 or more reports nothing, since similarity never
      exceeds 1. This is also how `nan` and `+inf` thresholds behave. */
  lemma HighThresholdReportsNothing(files: seq<string>, sigs: map<string, seq<bool>>, threshold: real,
                                    hashSize: int, bands: int, t: NearDuplicate)
    requires threshold >= 1.0
    ensures !NearDuplicateSpec(files, sigs, threshold, hashSize, bands, t)
  {
  }

  /** A negative threshold reports every candidate pair, as `-inf` does. */
  lemma NegativeThresholdReportsEveryCandidate(files: seq<string>, sigs: map<string, seq<bool>>, threshold: real,
                                               hashSize: int, bands: int, a: string, b: string)
    requires threshold < 0.0 && hashSize != 0
    requires forall f :: f in sigs ==> |sigs[f]| == SignatureLength(hashSize)
    requires CandidateSpec(files, sigs, hashSize, bands, a, b)
    ensures NearDuplicateSpec(files, sigs, threshold, hashSize, bands, NearDuplicate(a, b, Similarity(sigs[a], sigs[b])))
  {
  }
}

=== FILE: distance.dfy ===
/**
  Hamming distance and similarity of two signatures (detect.py:92-96).

  The source measures distance as the number of ones in the XOR of the two
  unpacked, packed signatures. `Hamming` is the reference definition (the
  number of positions at which the original signatures differ);
  `PackedDistanceIsHamming` shows the two agree, padding included.
 */
module Distance {
  import opened Packing

  /** The number of positions at which `x` and `y` differ. */
  function Hamming(x: seq<bool>, y: seq<bool>): nat
    requires |x| == |y|
  {
    |set i | 0 <= i < |x| && x[i] != y[i]|
  }

  /** `np.bitwise_xor(x, y)` on boolean arrays. */
  function XorBits(x: seq<bool>, y: seq<bool>): (r: seq<bool>)
    requires |x| == |y|
    ensures |r| == |x|
  {
    seq(|x|, i requires 0 <= i < |x| => x[i] != y[i])
  }

  /** `sum(bits)`: the number of set bits. */
  function CountOnes(bits: seq<bool>): nat
  {
    if |bits| == 0 then 0
    else CountOnes(bits[..|bits| - 1]) + (if bits[|bits| - 1] then 1 else 0)
  }

  /** `sum(bitwise_xor(unpackbits(pa), unpackbits(pb)))`. */
  function PackedDistance(pa: seq<byte>, pb: seq<byte>): nat
    requires |pa| == |pb|
  {
    CountOnes(XorBits(Unpack(pa), Unpack(pb)))
  }

  /** `(n - hd) / n` with `n` the signature length, as an exact rational. */
  function Similarity(x: seq<bool>, y: seq<bool>): (s: real)
    requires |x| == |y| > 0
    ensures 0.0 <= s <= 1.0
  {
    HammingBound(x, y);
    (|x| - Hamming(x, y)) as real / |x| as real
  }

  /** `CountOnes` counts exactly the positions that hold `true`. */
  lemma {:induction false} CountOnesIsCardinality(bits: seq<bool>)
    ensures CountOnes(bits) == |set i | 0 <= i < |bits| && bits[i]|
    ensures CountOnes(bits) <= |bits|
  {
    if |bits| > 0 {
      var init := bits[..|bits| - 1];
      CountOnesIsCardinality(init);
      var s := set i | 0 <= i < |bits| && bits[i];
      var s0 := set i | 0 <= i < |init| && init[i];
      if bits[|bits| - 1] {
        assert s == s0 + {|bits| - 1};
      } else {
        assert s == s0;
      }
    }
  }

  lemma {:induction false} CountOnesAppend(a: seq<bool>, b: seq<bool>)
    ensures CountOnes(a + b) == CountOnes(a) + CountOnes(b)
    decreases |b|
  {
    if |b| == 0 {
      assert a + b == a;
    } else {
      var b0 := b[..|b| - 1];
      assert (a + b)[..|a + b| - 1] == a + b0;
      assert (a + b)[|a + b| - 1] == b[|b| - 1];
      CountOnesAppend(a, b0);
    }
  }

  lemma {:induction false} CountOnesZeros(k: nat)
    ensures CountOnes(Zeros(k)) == 0
  {
    if k > 0 {
      assert Zeros(k)[..k - 1] == Zeros(k - 1);
      CountOnesZeros(k - 1);
    }
  }

  /** The set bits of the XOR are the positions where the inputs differ. */
  lemma CountOnesXorIsHamming(x: seq<bool>, y: seq<bool>)
    requires |x| == |y|
    ensures CountOnes(XorBits(x, y)) == Hamming(x, y)
  {
    var z := XorBits(x, y);
    CountOnesIsCardinality(z);
    assert (set i | 0 <= i < |z| && z[i]) == (set i | 0 <= i < |x| && x[i] != y[i]);
  }

  /** The distance the source computes from packed signatures equals the
      Hamming distance of the original signatures: both sides carry the same
      zero padding, and equal padding never differs. */
  lemma PackedDistanceIsHamming(x: seq<bool>, y: seq<bool>)
    requires |x| == |y|
    ensures |Pack(x)| == |Pack(y)|
    ensures PackedDistance(Pack(x), Pack(y)) == Hamming(x, y)
  {
    var pad := Zeros(PadLength(|x|));
    UnpackPack(x);
    UnpackPack(y);
    ZerosAreFalse(|pad|);
    assert XorBits(x + pad, y + pad) == XorBits(x, y) + pad;
    CountOnesAppend(XorBits(x, y), pad);
    CountOnesZeros(|pad|);
    CountOnesXorIsHamming(x, y);
  }

  /** At most every position differs. */
  lemma HammingBound(x: seq<bool>, y: seq<bool>)
    requires |x| == |y|
    ensures Hamming(x, y) <= |x|
  {
    CountOnesXorIsHamming(x, y);
    CountOnesIsCardinality(XorBits(x, y));
  }

  /** The distance is zero exactly for identical signatures. */
  lemma HammingZeroIffEqual(x: seq<bool>, y: seq<bool>)
    requires |x| == |y|
    ensures Hamming(x, y) == 0 <==> x == y
  {
    var d := set i | 0 <= i < |x| && x[i] != y[i];
    if x != y {
      var k :| 0 <= k < |x| && x[k] != y[k];
      assert k in d;
    }
  }

  lemma HammingSymmetric(x: seq<bool>, y: seq<bool>)
    requires |x| == |y|
    ensures Hamming(x, y) == Hamming(y, x)
  {
    assert (set i | 0 <= i < |x| && x[i] != y[i]) == (set i | 0 <= i < |y| && y[i] != x[i]);
  }

  /** Similarity does not depend on the order of the two images. */
  lemma SimilaritySymmetric(x: seq<bool>, y: seq<bool>)
    requires |x| == |y| > 0
    ensures Similarity(x, y) == Similarity(y, x)
  {
    HammingSymmetric(x, y);
  }

  /** Similarity is 1 exactly for bit-identical signatures. */
  lemma SimilarityOneIffIdentical(x: seq<bool>, y: seq<bool>)
    requires |x| == |y| > 0
    ensures Similarity(x, y) == 1.0 <==> x == y
  {
    HammingZeroIffEqual(x, y);
    var n := |x| as real;
    var h := Hamming(x, y) as real;
    assert Similarity(x, y) == (n - h) / n;
    if Similarity(x, y) == 1.0 {
      assert n - h == n;
    }
  }
}

=== FILE: errors.dfy ===
/**
  The failures of the detector that the model keeps.

  Both are a `ZeroDivisionError` in the source: `bands == 0` fails when
  `rows` is computed (detect.py:48), and a zero signature length fails when
  the first candidate pair is scored (detect.py:96). A file that cannot be
  decoded is not a failure of the run; it is skipped (detect.py:60-64).
 */
module Errors {

  datatype Error =
    | ZeroBands            // hash_size**2 / bands with bands == 0
    | ZeroSignatureLength  // (n - hd) / n with n == hash_size**2 == 0

  datatype Result<T> = Ok(value: T) | Err(error: Error)
}

=== FILE: packing.dfy ===
/**
  NumPy's `packbits` / `unpackbits` on a one-dimensional boolean array.

  `packbits` groups the bits eight at a time, most significant bit first, and
  pads the last group with zero bits; `unpackbits` expands every byte back into
  its eight bits. The detector stores signatures packed (detect.py:67) and
  unpacks them again to measure distance (detect.py:92-95), so the padding
  zeros take part in that measurement.
 */
module Packing {

  newtype byte = x: int | 0 <= x < 256

  function Pow2(k: nat): (p: nat)
    ensures p >= 1
  {
    if k == 0 then 1 else 2 * Pow2(k - 1)
  }

  /** `k` zero bits. */
  function Zeros(k: nat): (z: seq<bool>)
    ensures |z| == k
  {
    if k == 0 then [] else Zeros(k - 1) + [false]
  }

  lemma {:induction false} ZerosAreFalse(k: nat)
    ensures forall i :: 0 <= i < k ==> !Zeros(k)[i]
  {
    if k > 0 {
      ZerosAreFalse(k - 1);
      assert Zeros(k) == Zeros(k - 1) + [false];
    }
  }

  /** The number spelled by `bits`, most significant bit first. */
  function BitsValue(bits: seq<bool>): (v: nat)
    ensures v < Pow2(|bits|)
  {
    if |bits| == 0 then 0
    else 2 * BitsValue(bits[..|bits| - 1]) + (if bits[|bits| - 1] then 1 else 0)
  }

  /** The low `width` bits of `v`, most significant bit first. */
  function ValueBits(v: nat, width: nat): (bits: seq<bool>)
    ensures |bits| == width
  {
    if width == 0 then [] else ValueBits(v / 2, width - 1) + [v % 2 == 1]
  }

  /** Reading a run of bits as a number and writing the number back with the
      same width gives the run back. */
  lemma {:induction false} ValueBitsOfBitsValue(bits: seq<bool>)
    ensures ValueBits(BitsValue(bits), |bits|) == bits
  {
    if |bits| > 0 {
      var init := bits[..|bits| - 1];
      var v := BitsValue(bits);
      assert v / 2 == BitsValue(init);
      assert (v % 2 == 1) == bits[|bits| - 1];
      ValueBitsOfBitsValue(init);
      assert bits == init + [bits[|bits| - 1]];
    }
  }

  /** The eight bits of a byte, most significant first. */
  function ByteBits(b: byte): (bits: seq<bool>)
    ensures |bits| == 8
  {
    ValueBits(b as nat, 8)
  }

  /** Eight bits, most significant first, as one byte. */
  function ByteOf(bits: seq<bool>): (b: byte)
    requires |bits| == 8
    ensures ByteBits(b) == bits
  {
    assert Pow2(8) == 256;
    ValueBitsOfBitsValue(bits);
    BitsValue(bits) as byte
  }

  /** The number of zero bits `packbits` appends to `m` bits. */
  function PadLength(m: nat): (k: nat)
    ensures k < 8
    ensures (m + k) % 8 == 0
  {
    (8 - m % 8) % 8
  }

  /** `np.packbits(bits)`. */
  function Pack(bits: seq<bool>): seq<byte>
    decreases |bits|
  {
    if |bits| == 0 then []
    else if |bits| < 8 then [ByteOf(bits + Zeros(8 - |bits|))]
    else [ByteOf(bits[..8])] + Pack(bits[8..])
  }

  /** `np.unpackbits(bytes)`. */
  function Unpack(bytes: seq<byte>): (r: seq<bool>)
    ensures |r| == 8 * |bytes|
  {
    if |bytes| == 0 then [] else ByteBits(bytes[0]) + Unpack(bytes[1..])
  }

  /** Unpacking a packed signature gives the signature followed by the zero
      padding `packbits` added, and nothing else. */
  lemma {:induction false} UnpackPack(bits: seq<bool>)
    ensures Unpack(Pack(bits)) == bits + Zeros(PadLength(|bits|))
    decreases |bits|
  {
    if |bits| == 0 {
    } else if |bits| < 8 {
      UnpackPackLastByte(bits);
    } else {
      var rest := bits[8..];
      UnpackPack(rest);
      UnpackPackStep(bits);
    }
  }

  /** `packbits` produces one byte per started group of eight bits. */
  lemma PackLength(bits: seq<bool>)
    ensures 8 * |Pack(bits)| == |bits| + PadLength(|bits|)
  {
    UnpackPack(bits);
  }

  /** A last, partial group of bits is padded to a full byte. */
  lemma UnpackPackLastByte(bits: seq<bool>)
    requires 0 < |bits| < 8
    ensures Unpack(Pack(bits)) == bits + Zeros(PadLength(|bits|))
  {
    var m := |bits|;
    assert m % 8 == m;
    assert PadLength(m) == 8 - m;
    var b := ByteOf(bits + Zeros(8 - m));
    assert Pack(bits) == [b];
    assert [b][1..] == [];
    assert Unpack([b]) == ByteBits(b) + Unpack([]);
  }

  /** A full group of eight bits unpacks to itself ahead of the rest. */
  lemma UnpackPackStep(bits: seq<bool>)
    requires |bits| >= 8
    requires Unpack(Pack(bits[8..])) == bits[8..] + Zeros(PadLength(|bits| - 8))
    ensures Unpack(Pack(bits)) == bits + Zeros(PadLength(|bits|))
  {
    var rest := bits[8..];
    var b := ByteOf(bits[..8]);
    PackFullGroup(bits);
    UnpackCons(b, Pack(rest));
    PadLengthShift(|bits|);
    Regroup(bits, ByteBits(b), Unpack(Pack(rest)), Zeros(PadLength(|bits|)));
  }

  lemma Regroup(bits: seq<bool>, head: seq<bool>, tail: seq<bool>, pad: seq<bool>)
    requires |bits| >= 8
    requires head == bits[..8]
    requires tail == bits[8..] + pad
    ensures head + tail == bits + pad
  {
    assert bits == bits[..8] + bits[8..];
  }

  lemma PackFullGroup(bits: seq<bool>)
    requires |bits| >= 8
    ensures Pack(bits) == [ByteOf(bits[..8])] + Pack(bits[8..])
  {
  }

  lemma UnpackCons(b: byte, rest: seq<byte>)
    ensures Unpack([b] + rest) == ByteBits(b) + Unpack(rest)
  {
    assert ([b] + rest)[1..] == rest;
  }

  lemma PadLengthShift(m: nat)
    requires m >= 8
    ensures PadLength(m - 8) == PadLength(m)
  {
    assert (m - 8) % 8 == m % 8;
  }
}

=== FILE: ranking.dfy ===
/**
  Ranking the accepted pairs (detect.py:101): `sort(key=similarity,
  reverse=True)`. The order among pairs of equal similarity is left open.
 */
module Ranking {
  import opened Sorting
  import opened Scoring

  /** "at least as similar as": the comparison of a descending sort. */
  const MoreSimilar: (NearDuplicate, NearDuplicate) -> bool :=
    (x: NearDuplicate, y: NearDuplicate) => x.similarity >= y.similarity

  lemma MoreSimilarIsTotalPreorder()
    ensures TotalPreorder(MoreSimilar)
  {
  }

  /** The results reordered by non-increasing similarity. */
  function Rank(results: seq<NearDuplicate>): (r: seq<NearDuplicate>)
    ensures multiset(r) == multiset(results)
    ensures forall i, j :: 0 <= i < j < |r| ==> r[i].similarity >= r[j].similarity
  {
    MoreSimilarIsTotalPreorder();
    var r := Sort(results, MoreSimilar);
    assert forall i, j :: 0 <= i < j < |r| ==> MoreSimilar(r[i], r[j]);
    r
  }
}

=== FILE: scoring.dfy ===
/**
  Scoring candidate pairs (detect.py:90-98).

  The source walks the candidate set in whatever order Python's set yields
  it, measures each pair on the packed signatures, and keeps the pair when
  its similarity is strictly above the threshold (the docstring at
  detect.py:41 says `>=`; the code uses `>`, and so does this model).
 */
module Scoring {
  import opened Errors
  import opened Sorting
  import opened Packing
  import opened Distance
  import opened CandidatePairs

  /** A reported pair: `(filename_A, filename_B, similarity)`. */
  datatype NearDuplicate = NearDuplicate(first: string, second: string, similarity: real)

  /** `t` is a candidate of `cands` scored with its true similarity, and that
      similarity is strictly above the threshold. */
  ghost predicate Accepted(t: NearDuplicate, cands: set<Pair>, sigs: map<string, seq<bool>>, threshold: real)
  {
    && (t.first, t.second) in cands
    && t.first in sigs && t.second in sigs
    && |sigs[t.first]| == |sigs[t.second]| > 0
    && t.similarity == Similarity(sigs[t.first], sigs[t.second])
    && t.similarity > threshold
  }

  /** `(hash_size**2 - hd) / hash_size**2` with `hd` taken from the packed
      signatures (detect.py:92-96). */
  function PackedSimilarity(pa: seq<byte>, pb: seq<byte>, n: nat): real
    requires |pa| == |pb|
    requires n > 0
  {
    (n - PackedDistance(pa, pb)) as real / n as real
  }

  /** Scoring from the packed form gives the similarity of the original signatures. */
  lemma PackedSimilarityIsSimilarity(x: seq<bool>, y: seq<bool>)
    requires |x| == |y| > 0
    ensures |Pack(x)| == |Pack(y)|
    ensures PackedSimilarity(Pack(x), Pack(y), |x|) == Similarity(x, y)
  {
    PackedDistanceIsHamming(x, y);
    SameDistanceSameScore(Pack(x), Pack(y), x, y);
  }

  lemma SameDistanceSameScore(pa: seq<byte>, pb: seq<byte>, x: seq<bool>, y: seq<bool>)
    requires |pa| == |pb|
    requires |x| == |y| > 0
    requires PackedDistance(pa, pb) == Hamming(x, y)
    ensures PackedSimilarity(pa, pb, |x|) == Similarity(x, y)
  {
  }

  /** One iteration of the scoring loop keeps "the output holds exactly the
      accepted pairs seen so far, each once". */
  lemma ScoreStep(out: seq<NearDuplicate>, done: set<Pair>, p: Pair, sigs: map<string, seq<bool>>,
                  threshold: real, similarity: real)
    requires forall t :: t in out <==> Accepted(t, done, sigs, threshold)
    requires Distinct(out)
    requires p !in done
    requires p.0 in sigs && p.1 in sigs && |sigs[p.0]| == |sigs[p.1]| > 0
    requires similarity == Similarity(sigs[p.0], sigs[p.1])
    ensures var out' := if similarity > threshold then out + [NearDuplicate(p.0, p.1, similarity)] else out;
      && (forall t :: t in out' <==> Accepted(t, done + {p}, sigs, threshold))
      && Distinct(out')
  {
    var out' := if similarity > threshold then out + [NearDuplicate(p.0, p.1, similarity)] else out;
    forall t ensures t in out' <==> Accepted(t, done + {p}, sigs, threshold) {
      if (t.first, t.second) == p {
        assert !Accepted(t, done, sigs, threshold);
      } else {
        assert Accepted(t, done + {p}, sigs, threshold) <==> Accepted(t, done, sigs, threshold);
      }
    }
    if similarity > threshold {
      assert NearDuplicate(p.0, p.1, similarity) !in out;
    }
  }

  /** Scores every candidate from the packed signatures and keeps those above
      `threshold`. The order of the output is the (unspecified) order in which
      the candidates are visited. */
  method ScoreCandidates(cands: set<Pair>, ghost sigs: map<string, seq<bool>>, packed: map<string, seq<byte>>,
                         n: nat, threshold: real)
    returns (r: Result<seq<NearDuplicate>>)
    requires forall p :: p in cands ==>
      && p.0 in sigs && p.1 in sigs && |sigs[p.0]| == n && |sigs[p.1]| == n
      && p.0 in packed && p.1 in packed && packed[p.0] == Pack(sigs[p.0]) && packed[p.1] == Pack(sigs[p.1])
    ensures r.Err? <==> n == 0 && cands != {}
    ensures r.Err? ==> r.error == ZeroSignatureLength
    ensures r.Ok? ==> forall t :: t in r.value <==> Accepted(t, cands, sigs, threshold)
    ensures r.Ok? ==> Distinct(r.value)
  {
    if n == 0 && cands != {} {
      return Err(ZeroSignatureLength);
    }
    var out: seq<NearDuplicate> := [];
    var rest := cands;
    ghost var done: set<Pair> := {};
    while rest != {}
      invariant rest <= cands
      invariant done == cands - rest
      invariant forall t :: t in out <==> Accepted(t, done, sigs, threshold)
      invariant Distinct(out)
      decreases |rest|
    {
      var p :| p in rest;
      var (a, b) := p;
      PackedSimilarityIsSimilarity(sigs[a], sigs[b]);
      var similarity := PackedSimilarity(packed[a], packed[b], n);
      ScoreStep(out, done, p, sigs, threshold, similarity);
      if similarity > threshold {
        out := out + [NearDuplicate(a, b, similarity)];
      }
      rest := rest - {p};
      done := done + {p};
    }
    return Ok(out);
  }
}

=== FILE: sorting.dfy ===
/**
  Sorting by a total preorder, as Python's `sorted` / `list.sort` do.

  The detector sorts twice: the members of a bucket by path (ascending) and
  the accepted results by similarity (descending). Both are instances of the
  insertion sort below with a different comparison. Python's sort is stable;
  the contract here states only what the detector relies on (a sorted
  permutation of the input), so tie order is left open.
 */
module Sorting {

  /** `le` is total and transitive, so it can drive a sort. */
  ghost predicate TotalPreorder<T(!new)>(le: (T, T) -> bool)
  {
    && (forall x, y :: le(x, y) || le(y, x))
    && (forall x, y, z :: le(x, y) && le(y, z) ==> le(x, z))
  }

  /** Every element is `le` every element after it. */
  predicate SortedBy<T>(s: seq<T>, le: (T, T) -> bool)
  {
    forall i, j :: 0 <= i < j < |s| ==> le(s[i], s[j])
  }

  /** No element occurs twice. */
  predicate Distinct<T(==)>(s: seq<T>)
  {
    forall i, j :: 0 <= i < j < |s| ==> s[i] != s[j]
  }

  /** Places `x` before the first element it is `le` to. */
  function Insert<T(!new)>(x: T, s: seq<T>, le: (T, T) -> bool): (r: seq<T>)
    requires TotalPreorder(le)
    requires SortedBy(s, le)
    ensures multiset(r) == multiset(s) + multiset{x}
    ensures SortedBy(r, le)
  {
    if |s| == 0 then [x]
    else if le(x, s[0]) then [x] + s
    else
      var tail := Insert(x, s[1..], le);
      assert s == [s[0]] + s[1..];
      assert forall k :: 0 <= k < |tail| ==> le(s[0], tail[k]) by {
        forall k | 0 <= k < |tail| ensures le(s[0], tail[k]) {
          assert tail[k] in multiset(tail);
          if tail[k] != x {
            assert tail[k] in s[1..];
          }
        }
      }
      SortedCons(s[0], tail, le);
      [s[0]] + tail
  }

  /** A head that is `le` every element of a sorted tail keeps it sorted. */
  lemma SortedCons<T>(h: T, tail: seq<T>, le: (T, T) -> bool)
    requires SortedBy(tail, le)
    requires forall k :: 0 <= k < |tail| ==> le(h, tail[k])
    ensures SortedBy([h] + tail, le)
  {
    var r := [h] + tail;
    forall i, j | 0 <= i < j < |r| ensures le(r[i], r[j]) {
      if i > 0 {
        assert r[i] == tail[i - 1] && r[j] == tail[j - 1];
      } else {
        assert r[j] == tail[j - 1];
      }
    }
  }

  /** Insertion sort: a sorted permutation of `s`. */
  function Sort<T(!new)>(s: seq<T>, le: (T, T) -> bool): (r: seq<T>)
    requires TotalPreorder(le)
    ensures multiset(r) == multiset(s)
    ensures SortedBy(r, le)
  {
    if |s| == 0 then []
    else
      assert s == s[..|s| - 1] + [s[|s| - 1]];
      Insert(s[|s| - 1], Sort(s[..|s| - 1], le), le)
  }

  /** Distinctness is the statement that no element has multiplicity above one. */
  lemma {:induction false} DistinctIffSingleMultiplicity<T>(s: seq<T>)
    ensures Distinct(s) <==> forall x :: multiset(s)[x] <= 1
  {
    if |s| > 0 {
      var init, last := s[..|s| - 1], s[|s| - 1];
      assert s == init + [last];
      DistinctIffSingleMultiplicity(init);
      if Distinct(s) {
        assert Distinct(init);
        assert last !in init by {
          forall i | 0 <= i < |init| ensures init[i] != last {
            assert init[i] == s[i];
          }
        }
      }
      if forall x :: multiset(s)[x] <= 1 {
        assert forall x :: multiset(init)[x] <= 1 by {
          forall x ensures multiset(init)[x] <= 1 {
            assert multiset(s)[x] == multiset(init)[x] + multiset([last])[x];
          }
        }
        assert multiset(s)[last] == multiset(init)[last] + 1;
        assert last !in multiset(init);
        forall i, j | 0 <= i < j < |s| ensures s[i] != s[j] {
          if j < |s| - 1 {
            assert init[i] == s[i] && init[j] == s[j];
          } else {
            assert s[i] in init;
          }
        }
      }
    }
  }

  /** A permutation of a repetition-free sequence is repetition-free. */
  lemma PermutationKeepsDistinct<T>(s: seq<T>, r: seq<T>)
    requires multiset(r) == multiset(s)
    requires Distinct(s)
    ensures Distinct(r)
  {
    DistinctIffSingleMultiplicity(s);
    DistinctIffSingleMultiplicity(r);
  }
}

=== FILE: string_order.dfy ===
/**
  The order Python uses when it compares two `str` values: lexicographic by
  character code, with a proper prefix ordered before its extensions.

  Dafny's own `<` on sequences means "proper prefix", so the order is defined
  here. It is the order `sorted` puts the members of a bucket in, and the
  order that makes a candidate pair canonical.
 */
module StringOrder {

  /** `a <= b` on Python strings. */
  predicate LexLe(a: string, b: string)
    decreases |a|
  {
    |a| == 0 || (|b| > 0 && (a[0] < b[0] || (a[0] == b[0] && LexLe(a[1..], b[1..]))))
  }

  /** `a < b` on Python strings. */
  predicate LexLt(a: string, b: string)
  {
    LexLe(a, b) && a != b
  }

  /** An independent description of the same order: `a` is a prefix of `b`, or
      the first position where they differ holds a smaller character in `a`. */
  ghost predicate FirstDifferenceLe(a: string, b: string)
  {
    a <= b || exists k :: 0 <= k < |a| && k < |b| && a[..k] == b[..k] && a[k] < b[k]
  }

  lemma LexLeMeansFirstDifference(a: string, b: string)
    ensures LexLe(a, b) <==> FirstDifferenceLe(a, b)
  {
    if LexLe(a, b) {
      LexLeGivesFirstDifference(a, b);
    }
    if FirstDifferenceLe(a, b) {
      FirstDifferenceGivesLexLe(a, b);
    }
  }

  lemma {:induction false} LexLeGivesFirstDifference(a: string, b: string)
    requires LexLe(a, b)
    ensures FirstDifferenceLe(a, b)
    decreases |a|
  {
    if |a| == 0 {
    } else if a[0] < b[0] {
      assert a[..0] == b[..0];
    } else {
      LexLeGivesFirstDifference(a[1..], b[1..]);
      if a[1..] <= b[1..] {
        assert a <= b by {
          assert a == [a[0]] + a[1..];
          assert b == [b[0]] + b[1..];
        }
      } else {
        var k :| 0 <= k < |a[1..]| && k < |b[1..]| && a[1..][..k] == b[1..][..k] && a[1..][k] < b[1..][k];
        assert a[..k + 1] == [a[0]] + a[1..][..k];
        assert b[..k + 1] == [b[0]] + b[1..][..k];
        assert a[k + 1] < b[k + 1];
      }
    }
  }

  lemma {:induction false} FirstDifferenceGivesLexLe(a: string, b: string)
    requires FirstDifferenceLe(a, b)
    ensures LexLe(a, b)
    decreases |a|
  {
    if |a| == 0 {
    } else if a <= b {
      assert a[1..] <= b[1..];
      FirstDifferenceGivesLexLe(a[1..], b[1..]);
    } else {
      var k :| 0 <= k < |a| && k < |b| && a[..k] == b[..k] && a[k] < b[k];
      if k > 0 {
        assert a[0] == a[..k][0] == b[..k][0] == b[0];
        assert a[1..][..k - 1] == a[..k][1..] == b[..k][1..] == b[1..][..k - 1];
        assert a[1..][k - 1] < b[1..][k - 1];
        FirstDifferenceGivesLexLe(a[1..], b[1..]);
      }
    }
  }

  lemma {:induction false} LexLeReflexive(a: string)
    ensures LexLe(a, a)
    decreases |a|
  {
    if |a| > 0 {
      LexLeReflexive(a[1..]);
    }
  }

  lemma {:induction false} LexLeTotal(a: string, b: string)
    ensures LexLe(a, b) || LexLe(b, a)
    decreases |a|
  {
    if |a| > 0 && |b| > 0 && a[0] == b[0] {
      LexLeTotal(a[1..], b[1..]);
    }
  }

  lemma {:induction false} LexLeAntisymmetric(a: string, b: string)
    requires LexLe(a, b) && LexLe(b, a)
    ensures a == b
    decreases |a|
  {
    if |a| > 0 {
      LexLeAntisymmetric(a[1..], b[1..]);
      assert a == [a[0]] + a[1..];
      assert b == [b[0]] + b[1..];
    }
  }

  lemma {:induction false} LexLeTransitive(a: string, b: string, c: string)
    requires LexLe(a, b) && LexLe(b, c)
    ensures LexLe(a, c)
    decreases |a|
  {
    if |a| > 0 && a[0] == b[0] && b[0] == c[0] {
      LexLeTransitive(a[1..], b[1..], c[1..]);
    }
  }

  /** `LexLt` is a strict total order: exactly one of `a < b`, `a == b`, `b < a`. */
  lemma LexLtTrichotomy(a: string, b: string)
    ensures LexLt(a, b) || a == b || LexLt(b, a)
    ensures !(LexLt(a, b) && LexLt(b, a))
  {
    LexLeTotal(a, b);
    if LexLe(a, b) && LexLe(b, a) {
      LexLeAntisymmetric(a, b);
    }
  }
}
